=== FILE: README.md ===
# AI Shopping Assistant — a Dafny model of its session logic

The application is a browser chat front end: the user types a shopping
query and edits preferences (budget, preferred brands, a sustainability
flag), an external language model answers with a reply and product
recommendations, and a side panel shows a pros/cons review summary for a
chosen product. Almost everything is rendering and calls to the external
model. This project models the part that is logic:

- **Text** (`text.dfy`): the JavaScript string operations the components
  use. `trim` uses the ECMAScript whitespace and line-terminator set.
  `split` works on a one-character separator and `join` builds the text
  back. `replace(/P/g, R)` is a global replace of a literal pattern.
- **Types** (`types.dfy`): the records of `types.ts`: offers, products,
  chat messages, preferences and deal alerts.
- **Service** (`service.dfy`): the two calls to the external model,
  reduced to their outcomes. A reply passes through. Any failure becomes an
  `Error` with a fixed message.
- **PreferencesPanel** (`preferences_panel.dfy`): the brand-list parser
  (split on commas, trim, drop empty tokens), the `join(', ')` text the
  field starts with, and the three field handlers over the panel's local
  state.
- **ChatWindow** (`chat_window.dfy`): the submit guard, which sends the
  trimmed text only when it is non-empty and nothing is loading, then
  clears the field.
- **ReviewSummaryPanel** (`review_summary_panel.dfy`): the choice between
  the loading, placeholder and summary bodies, the `For: <name>` header,
  and the `Pros:`/`Cons:` highlighting.
- **App** (`app.dfy`): the session state and its transitions. Each async
  handler is split at its `await` into a start step and a settle step. The
  settled outcome (`Resolved` or `Rejected`) is an input. A session is any
  sequence of these events, interleaved in any order.

## Model

| member | source | states |
|---|---|---|
| `Text.Trim` | components/PreferencesPanel.tsx:23 | `trim()` gives a string that neither starts nor ends with whitespace and is no longer than its input |
| `Text.TrimSlice` | components/ChatWindow.tsx:27-28 | what `trim()` keeps is one contiguous slice of the input, and only whitespace is cut off on either side |
| `Text.TrimDecomposition` | components/PreferencesPanel.tsx:23 | trimming any whitespace + trimmed core + whitespace gives exactly that core, so trim is fully determined |
| `Text.TrimEmptyIff` | components/ChatWindow.tsx:27 | `trim()` is empty exactly when the input is all whitespace; this is the truthiness test of the send guard |
| `Text.TrimOfTrimmed` | components/ChatWindow.tsx:28 | trimming an already trimmed string changes nothing |
| `Text.TrimLeadingWhitespace` | components/PreferencesPanel.tsx:23 | extra leading whitespace does not change the trimmed result |
| `Text.Split` | components/PreferencesPanel.tsx:23 | `split(',')` always gives at least one part, no part contains a comma, and joining the parts with the comma gives back the input |
| `Text.SplitFree` | components/PreferencesPanel.tsx:23 | a comma-free string splits into just itself |
| `Text.SplitConcat` | components/PreferencesPanel.tsx:23 | splitting `a + "," + b` gives the parts of `a` followed by the parts of `b` |
| `Text.SplitJoin` | components/PreferencesPanel.tsx:13 | splitting the join of a non-empty list of comma-free parts gives back the same parts (the empty list joins to `""`, which splits to `[""]`) |
| `Text.ReplaceAllAbsent` | components/ReviewSummaryPanel.tsx:42 | a global replace leaves text that does not contain the pattern unchanged |
| `Text.ReplaceOnce` | components/ReviewSummaryPanel.tsx:42 | for a pattern whose first character does not occur again in it (true of `Pros:` and `Cons:`), an occurrence with no other occurrence before or after it is the only text a global replace changes |
| `Text.ReplaceAllJoin` | components/ReviewSummaryPanel.tsx:42 | for such a pattern, a global replace rewrites every occurrence: pattern-free segments joined by the pattern become the same segments joined by the replacement |
| `Text.ConcatAbsentByHead` | components/ReviewSummaryPanel.tsx:42 | joining two pattern-free strings creates no occurrence when the second starts with a character the pattern has nowhere after its head |
| `Text.ConcatAbsentByTail` | components/ReviewSummaryPanel.tsx:42 | joining two pattern-free strings creates no occurrence when the first ends with a character the pattern has nowhere before its last |
| `Text.ReplaceAllLeftmost` | components/ReviewSummaryPanel.tsx:42 | at the leftmost occurrence, the text before it is kept verbatim, the occurrence becomes the replacement, and replacing continues after it |
| `PreferencesPanel.TrimEach` | components/PreferencesPanel.tsx:23 | `map(b => b.trim())` keeps the number of tokens and leaves every token without surrounding whitespace |
| `PreferencesPanel.TrimEachAt` | components/PreferencesPanel.tsx:23 | the token at each position is the trimmed input token at that position |
| `PreferencesPanel.DropEmpty` | components/PreferencesPanel.tsx:23 | `filter(Boolean)` keeps exactly the non-empty tokens: a string is in the result if and only if it is a non-empty token of the input, and the result is no longer than the input |
| `PreferencesPanel.ParseBrands` | components/PreferencesPanel.tsx:23 | every parsed brand is non-empty, has no surrounding whitespace and contains no comma |
| `PreferencesPanel.ParseBrandsConcat` | components/PreferencesPanel.tsx:23 | order is kept and duplicates are not removed: the brands before a comma come first, then those after it |
| `PreferencesPanel.ParseBrandsSegment` | components/PreferencesPanel.tsx:23 | a comma-free segment gives its trimmed text, or nothing when it is blank |
| `PreferencesPanel.ParseBrandsEmptyIff` | components/PreferencesPanel.tsx:23 | the field parses to no brands exactly when it holds only commas and whitespace, the empty field included |
| `PreferencesPanel.ParseBrandsLeadingWhitespace` | components/PreferencesPanel.tsx:23 | whitespace in front of the field changes nothing |
| `PreferencesPanel.ParseBrandsPadded` | components/PreferencesPanel.tsx:23 | a proper brand padded with whitespace parses to the bare brand |
| `PreferencesPanel.ParseBrandsText` | components/PreferencesPanel.tsx:13-23 | round trip: brands that are non-empty, trimmed and comma-free, shown as `join(', ')`, parse back to the same list |
| `PreferencesPanel.Mount` | components/PreferencesPanel.tsx:12-13 | the panel copies the preferences and the brands field shows the brands joined with `", "`; when every brand is proper, the field and the list agree |
| `PreferencesPanel.OnBudgetChange` | components/PreferencesPanel.tsx:15-19 | only `budget` changes; the emitted preferences equal the panel's new copy; field/list agreement is kept |
| `PreferencesPanel.OnBrandsChange` | components/PreferencesPanel.tsx:21-26 | the raw text is stored, only `preferredBrands` changes (to the parsed text), and afterwards the field and the list agree |
| `PreferencesPanel.OnSustainabilityChange` | components/PreferencesPanel.tsx:28-32 | only `sustainabilityFocus` changes; the emitted preferences equal the panel's new copy |
| `PreferencesPanel.HandlersCommute` | components/PreferencesPanel.tsx:15-32 | the three setters touch separate fields, so two edits in either order give the same panel |
| `ChatWindow.HandleSend` | components/ChatWindow.tsx:25-31 | something is sent exactly when not loading and the input is not all whitespace. The sent text is non-empty, trimmed, and the input minus its surrounding whitespace; the field is then cleared. Otherwise the field is unchanged |
| `ChatWindow.LoadingNeverSends` | components/ChatWindow.tsx:27 | while loading, nothing is sent and the field keeps its text, whatever it holds |
| `ChatWindow.SentTextIsTrimmedInput` | components/ChatWindow.tsx:27-28 | the sent text is the trimmed input, and submitting it again would send the same text |
| `ReviewSummaryPanel.SelectBody` | components/ReviewSummaryPanel.tsx:21-43 | exactly one body is chosen. Loading wins whenever the flag is set. The placeholder shows exactly when idle with a null or empty summary. Otherwise the summary is shown highlighted |
| `ReviewSummaryPanel.Header` | components/ReviewSummaryPanel.tsx:18 | `For: <name>` is shown exactly when the product name is non-null and non-empty |
| `ReviewSummaryPanel.HighlightWithoutMarkers` | components/ReviewSummaryPanel.tsx:42 | a summary with no `Pros:` and no `Cons:` is shown unchanged |
| `ReviewSummaryPanel.HighlightFirstPros` | components/ReviewSummaryPanel.tsx:42 | when the text before a `Pros:` holds no `Pros:`, that marker is wrapped, the text before it is kept, and the first pass continues after it |
| `ReviewSummaryPanel.HighlightFirstCons` | components/ReviewSummaryPanel.tsx:42 | when the text before a `Cons:` holds no `Cons:`, that marker is wrapped, the text before it is kept, and the second pass continues after it |
| `ReviewSummaryPanel.MarkerFacts` | components/ReviewSummaryPanel.tsx:42 | neither marker occurs inside the other or straddles into it, and the green `Pros:` markup contains no `Cons:`, so the second pass never rewrites the first pass's output |
| `ReviewSummaryPanel.HighlightProsPass` | components/ReviewSummaryPanel.tsx:42 | on a summary with one `Pros:` and one `Cons:` section, the first pass wraps only the `Pros:` and keeps every other character |
| `ReviewSummaryPanel.HighlightConsPass` | components/ReviewSummaryPanel.tsx:42 | the second pass then wraps only the `Cons:` and leaves the green markup alone |
| `ReviewSummaryPanel.HighlightProsThenCons` | components/ReviewSummaryPanel.tsx:42 | a summary laid out as introduction, `Pros:` section, `Cons:` section is shown with exactly those two markers wrapped, green then red, and all other text in place |
| `Service.GenerateProductRecommendations` | services/geminiService.ts:37-69 | a reply passes through unchanged; every failure is rethrown as an `Error` with the fixed "I had trouble finding products" text |
| `Service.SummarizeReviews` | services/geminiService.ts:71-82 | a reply passes through unchanged; every failure is rethrown as an `Error` with the fixed summary-failure text |
| `App.Init` | App.tsx:10-27 | the conversation is exactly the greeting: an AI message with id `init`, the fixed welcome text, no products and no `type`; the session starts with budget `under $500`, no brands, sustainability off, nothing loading, and no selection or summary |
| `App.ChangePreferences` | App.tsx:29-31 | the whole preferences value is replaced and nothing else changes |
| `App.StartSend` | App.tsx:33-40 | exactly one user message with the given text is appended after the unchanged earlier messages; loading becomes true; nothing else changes |
| `App.SettleSend` | App.tsx:42-60 | one AI message is appended. On success it carries the reply text and products; on failure it carries the error text and no products. Loading becomes false and nothing else changes |
| `App.StartSummary` | App.tsx:63-66 | the product becomes the selection, the summary is cleared, summary loading becomes true; the conversation is untouched |
| `App.SettleSummary` | App.tsx:67-74 | the summary becomes the reply or the error text, summary loading becomes false, and nothing else (selection included) changes |
| `App.SendTurn` | App.tsx:33-60 | a full turn appends exactly a user message followed by one AI message, and loading ends |
| `App.FailedRecommendationReply` | App.tsx:51-57 | when the recommendation service fails, the AI message is its fixed error text with no products |
| `App.FailedSummaryText` | App.tsx:67-72 | when the summary service fails, the panel shows the service's fixed error message, not the fallback for non-`Error` values |
| `App.SummaryLastWriteWins` | App.tsx:63-74 | with two overlapping summary requests, the request that settles last sets the shown summary, and the selection is the product chosen last |
| `App.SubmitInput` | components/ChatWindow.tsx:27-29 | a submit changes nothing while loading or for a blank input; otherwise it starts a send with the trimmed input |
| `App.SubmitWhileLoadingIgnored` | components/ChatWindow.tsx:27 | while a recommendation is in flight, a submit adds no message and changes nothing |
| `App.StepAppendsOnly` | App.tsx:39-57 | no event edits or removes a message: the old conversation is a prefix of the new one, and user messages stay non-empty and trimmed |
| `App.RunAppendsOnly` | App.tsx:39-57 | over any sequence of events the conversation only grows at its end |
| `App.SessionInvariant` | App.tsx:16-57 | in every reachable session the greeting is still first and every user message is non-empty, trimmed and has no products |

Five definitions have no contract of their own; lemma rows above pin them down:

- `Text.Join` (components/PreferencesPanel.tsx:13) is `Array.prototype.join`. `Text.Split` is stated against it, and `Text.SplitJoin` and `PreferencesPanel.ParseBrandsText` prove the round trips.
- `Text.ReplaceAll` (components/ReviewSummaryPanel.tsx:42) is `replace(/P/g, R)`. `Text.ReplaceAllAbsent` and `Text.ReplaceAllLeftmost` together fix its result on every input, and `Text.ReplaceAllJoin` states that every occurrence is rewritten.
- `ReviewSummaryPanel.Highlight` (components/ReviewSummaryPanel.tsx:42) is the two passes. It is described by `HighlightWithoutMarkers`, `HighlightFirstPros`, `HighlightFirstCons` and `HighlightProsThenCons`.
- `PreferencesPanel.BrandsText` (components/PreferencesPanel.tsx:13) is `join(', ')`. `PreferencesPanel.ParseBrandsText` proves that the parser inverts it for proper brands.
- `App.ErrorText` (App.tsx:55, 71) is `error instanceof Error ? error.message : fallback`. `App.SettleSend`, `App.SettleSummary` and `App.FailedSummaryText` are stated through it.

## Left out

- Prompt construction, the network call and `JSON.parse` in `services/geminiService.ts`: the external model's answer is an input (`Option`), so a failure of any kind is the `None` case.
- The reply is assumed to match the requested `responseSchema`. The code returns the `JSON.parse` result (services/geminiService.ts:61-63) and `response.text` (services/geminiService.ts:77) without checking them, so a reply missing `response_text` or `products` resolves, and App.tsx:47-48 would store `undefined` in the message. The typed `Recommendation` reply cannot express that case.
- The `console.error` logging in both catch blocks (services/geminiService.ts:66, 79) is not modelled.
- The `API_KEY` environment check at module load in `services/geminiService.ts` is start-up configuration. It is not modelled.
- Message ids come from `Date.now()`, a clock reading. They are parameters of the transitions, and the model makes no claim that they are unique.
- React mechanics are not modelled: rendering, `useEffect` scroll-to-bottom, and `dangerouslySetInnerHTML` turning the highlighted string into markup. Each handler is split at its `await` into two sequential steps. The interleaving of steps is free, but there is no cancellation.
- Deal alerts are not modelled: nothing in the code creates, fires or removes a `DealAlert`. `DealAlertsPanel.tsx` only renders a list and forwards remove clicks. The `DealAlert` record is declared in `types.ts` and nothing more.
- `ProductCard.tsx` is pure rendering. It also reads `source` and `price` fields that `Product` does not have.
- The message `type` field (`message`/`alert`) exists in `types.ts`, but no handler sets it. The model always leaves it absent.
- Strings are sequences of Unicode scalar values. UTF-16 surrogate pairs, which JavaScript `trim`/`split` see as separate code units, are not distinguished. None of the separators or markers is a surrogate.
- `Text.ReplaceAll` models only a literal, non-empty pattern and a replacement with no `$` patterns. That is the only way the summary panel uses `replace`.
- `ReviewSummaryPanel.HighlightProsThenCons`: the full result of the two passes is proved only for a summary with one `Pros:` and then one `Cons:`, the shape the summary prompt asks for. For other texts, each pass on its own is described by `Text.ReplaceAllJoin`, which rewrites every occurrence, and by the leftmost-occurrence lemmas.

=== FILE: app.dfy ===
/** The top-level session state and its transitions: sending a chat
    message and settling the recommendation request, asking for a review
    summary and settling that request, and replacing the preferences.
    Each asynchronous handler is split at its `await` into a step that
    starts the request and a step that settles it; the settled outcome is
    an input. Message ids come from the clock and are parameters here. */
module App {
  import opened Types
  import opened Text
  import opened Service
  import ChatWindow

  const GreetingText: string := "Hello! I am your futuristic shopping assistant. How can I help you find the perfect product today?"
  const SendFallbackText: string := "Sorry, something went wrong."
  const SummaryFallbackText: string := "Failed to load summary."

  datatype AppState = AppState(
    preferences: UserPreferences,
    messages: seq<ChatMessage>,
    isLoading: bool,
    selectedProduct: Option<string>,
    reviewSummary: Option<string>,
    isSummaryLoading: bool)

  function Greeting(): ChatMessage {
    ChatMessage("init", Ai, GreetingText, None, None)
  }

  function UserMessage(id: string, text: string): ChatMessage {
    ChatMessage(id, User, text, None, None)
  }

  /** The text shown for a rejected request: the error's message, or a
      fallback when something other than an `Error` was thrown. */
  function ErrorText(reason: Thrown, fallback: string): string {
    match reason
    case ErrorObject(message) => message
    case NonErrorValue => fallback
  }

  /** The assistant message a settled recommendation request produces. */
  function ReplyMessage(id: string, outcome: Settled<Recommendation>): ChatMessage {
    match outcome
    case Resolved(rec) => ChatMessage(id, Ai, rec.responseText, Some(rec.products), None)
    case Rejected(reason) => ChatMessage(id, Ai, ErrorText(reason, SendFallbackText), None, None)
  }

  /** The session at start-up. */
  function Init(): (s: AppState)
    ensures s.messages == [Greeting()]
    ensures s.preferences.budget == "under $500"
    ensures s.preferences.preferredBrands == []
    ensures !s.preferences.sustainabilityFocus
    ensures !s.isLoading && !s.isSummaryLoading
    ensures s.selectedProduct.None? && s.reviewSummary.None?
  {
    AppState(UserPreferences("under $500", [], false), [Greeting()], false, None, None, false)
  }

  /** `handlePreferencesChange`: the whole preferences value is replaced. */
  function ChangePreferences(s: AppState, prefs: UserPreferences): (s': AppState)
    ensures s'.preferences == prefs
    ensures s'.(preferences := s.preferences) == s
  {
    s.(preferences := prefs)
  }

  /** `handleSendMessage` up to its `await`: the user's message is appended
      and the loading flag is raised; nothing else changes. */
  function StartSend(s: AppState, id: string, text: string): (s': AppState)
    ensures |s'.messages| == |s.messages| + 1
    ensures s'.messages[..|s.messages|] == s.messages
    ensures s'.messages[|s.messages|] == UserMessage(id, text)
    ensures s'.isLoading
    ensures s'.(messages := s.messages, isLoading := s.isLoading) == s
  {
    s.(messages := s.messages + [UserMessage(id, text)], isLoading := true)
  }

  /** `handleSendMessage` after its `await`: one assistant message is
      appended (the reply with its products, or the error text without
      products) and the loading flag is cleared; nothing else changes. */
  function SettleSend(s: AppState, id: string, outcome: Settled<Recommendation>): (s': AppState)
    ensures |s'.messages| == |s.messages| + 1
    ensures s'.messages[..|s.messages|] == s.messages
    ensures s'.messages[|s.messages|].sender == Ai && s'.messages[|s.messages|].id == id
         && s'.messages[|s.messages|].kind.None?
    ensures outcome.Resolved? ==>
      s'.messages[|s.messages|].text == outcome.value.responseText &&
      s'.messages[|s.messages|].products == Some(outcome.value.products)
    ensures outcome.Rejected? ==>
      s'.messages[|s.messages|].text == ErrorText(outcome.reason, SendFallbackText) &&
      s'.messages[|s.messages|].products.None?
    ensures !s'.isLoading
    ensures s'.(messages := s.messages, isLoading := s.isLoading) == s
  {
    s.(messages := s.messages + [ReplyMessage(id, outcome)], isLoading := false)
  }

  /** `handleSummarize` up to its `await`: the product becomes the
      selection, any earlier summary is cleared and the summary loading
      flag is raised; the conversation is untouched. */
  function StartSummary(s: AppState, productName: string): (s': AppState)
    ensures s'.selectedProduct == Some(productName)
    ensures s'.reviewSummary.None?
    ensures s'.isSummaryLoading
    ensures s'.(selectedProduct := s.selectedProduct, reviewSummary := s.reviewSummary,
                isSummaryLoading := s.isSummaryLoading) == s
  {
    s.(selectedProduct := Some(productName), isSummaryLoading := true, reviewSummary := None)
  }

  /** `handleSummarize` after its `await`: the summary becomes the reply
      or the error text and the flag is cleared. The selection is left as
      it is, so a late reply overwrites the summary whatever is selected. */
  function SettleSummary(s: AppState, outcome: Settled<string>): (s': AppState)
    ensures outcome.Resolved? ==> s'.reviewSummary == Some(outcome.value)
    ensures outcome.Rejected? ==> s'.reviewSummary == Some(ErrorText(outcome.reason, SummaryFallbackText))
    ensures !s'.isSummaryLoading
    ensures s'.(reviewSummary := s.reviewSummary, isSummaryLoading := s.isSummaryLoading) == s
  {
    var text := match outcome
      case Resolved(summary) => summary
      case Rejected(reason) => ErrorText(reason, SummaryFallbackText);
    s.(reviewSummary := Some(text), isSummaryLoading := false)
  }

  /** A whole send turn: the conversation grows by exactly the user's
      message followed by one assistant message, and loading ends. */
  lemma SendTurn(s: AppState, userId: string, text: string, aiId: string, outcome: Settled<Recommendation>)
    ensures SettleSend(StartSend(s, userId, text), aiId, outcome).messages
         == s.messages + [UserMessage(userId, text), ReplyMessage(aiId, outcome)]
    ensures !SettleSend(StartSend(s, userId, text), aiId, outcome).isLoading
  {
    var s1 := StartSend(s, userId, text);
    assert s1.messages + [ReplyMessage(aiId, outcome)]
        == s.messages + [UserMessage(userId, text), ReplyMessage(aiId, outcome)];
  }

  /** When the recommendation service fails, the assistant answers with
      its fixed error text and no products. */
  lemma FailedRecommendationReply(s: AppState, id: string)
    ensures SettleSend(s, id, GenerateProductRecommendations(None)).messages
         == s.messages + [ChatMessage(id, Ai, RecommendationFailedText, None, None)]
  {
  }

  /** When the summary service fails, the panel shows its fixed error
      text, not the fallback. */
  lemma FailedSummaryText(s: AppState)
    ensures SettleSummary(s, SummarizeReviews(None)).reviewSummary == Some(SummaryFailedText)
    ensures SummaryFailedText != SummaryFallbackText
  {
  }

  /** Two summary requests that settle in either order: the panel keeps
      whichever settled last, and the selection stays with the product
      chosen last. */
  lemma SummaryLastWriteWins(s: AppState, a: string, b: string, first: Settled<string>, second: Settled<string>)
    ensures SettleSummary(SettleSummary(StartSummary(StartSummary(s, a), b), first), second).reviewSummary
         == SettleSummary(StartSummary(s, b), second).reviewSummary
    ensures SettleSummary(SettleSummary(StartSummary(StartSummary(s, a), b), first), second).selectedProduct
         == Some(b)
  {
  }

  /** The events of a session. `Submit` is the chat field's submit handler
      feeding `handleSendMessage`; the other events are the App handlers
      and the settling of their requests, which may come in any order. */
  datatype Event =
    | Submit(input: string, userId: string)
    | SendSettled(aiId: string, outcome: Settled<Recommendation>)
    | Summarize(productName: string)
    | SummarySettled(summary: Settled<string>)
    | PreferencesChanged(prefs: UserPreferences)

  /** A submit from the chat field: guarded by the field's check, then the
      start of `handleSendMessage` with the trimmed text. */
  function SubmitInput(s: AppState, input: string, userId: string): (s': AppState)
    ensures s.isLoading ==> s' == s
    ensures AllWhitespace(input) ==> s' == s
    ensures !s.isLoading && !AllWhitespace(input) ==> s' == StartSend(s, userId, Trim(input))
  {
    var d := ChatWindow.HandleSend(input, s.isLoading);
    if d.sent.Some? then StartSend(s, userId, d.sent.value) else s
  }

  function Step(s: AppState, e: Event): AppState {
    match e
    case Submit(input, userId) => SubmitInput(s, input, userId)
    case SendSettled(aiId, outcome) => SettleSend(s, aiId, outcome)
    case Summarize(name) => StartSummary(s, name)
    case SummarySettled(outcome) => SettleSummary(s, outcome)
    case PreferencesChanged(prefs) => ChangePreferences(s, prefs)
  }

  function Run(s: AppState, events: seq<Event>): AppState
    decreases |events|
  {
    if |events| == 0 then s else Run(Step(s, events[0]), events[1..])
  }

  /** Every message the user sent through the chat field is non-empty and
      trimmed, and no user message carries products. */
  predicate UserMessagesWellFormed(messages: seq<ChatMessage>) {
    forall k :: 0 <= k < |messages| && messages[k].sender == User ==>
      messages[k].text != "" && IsTrimmed(messages[k].text) && messages[k].products.None?
  }

  /** One step never edits or removes a message: the old conversation is
      a prefix of the new one, and well-formed user messages stay so. */
  lemma StepAppendsOnly(s: AppState, e: Event)
    ensures |s.messages| <= |Step(s, e).messages|
    ensures Step(s, e).messages[..|s.messages|] == s.messages
    ensures UserMessagesWellFormed(s.messages) ==> UserMessagesWellFormed(Step(s, e).messages)
  {
    match e
    case Submit(input, userId) =>
      var d := ChatWindow.HandleSend(input, s.isLoading);
      if d.sent.Some? {
        var m := Step(s, e).messages;
        assert m == s.messages + [UserMessage(userId, d.sent.value)];
      }
    case SendSettled(aiId, outcome) =>
      assert Step(s, e).messages == s.messages + [ReplyMessage(aiId, outcome)];
    case _ =>
  }

  /** Over any sequence of events the conversation only grows at its end. */
  lemma {:induction false} RunAppendsOnly(s: AppState, events: seq<Event>)
    ensures |s.messages| <= |Run(s, events).messages|
    ensures Run(s, events).messages[..|s.messages|] == s.messages
    ensures UserMessagesWellFormed(s.messages) ==> UserMessagesWellFormed(Run(s, events).messages)
    decreases |events|
  {
    if |events| > 0 {
      var s1 := Step(s, events[0]);
      StepAppendsOnly(s, events[0]);
      RunAppendsOnly(s1, events[1..]);
      var m := Run(s, events).messages;
      assert m[..|s1.messages|] == s1.messages;
      assert m[..|s.messages|] == m[..|s1.messages|][..|s.messages|];
    }
  }

  /** In every reachable session the greeting is still the first message
      and every user message is non-empty and trimmed. */
  lemma SessionInvariant(events: seq<Event>)
    ensures |Run(Init(), events).messages| >= 1
    ensures Run(Init(), events).messages[0] == Greeting()
    ensures UserMessagesWellFormed(Run(Init(), events).messages)
  {
    RunAppendsOnly(Init(), events);
    assert Run(Init(), events).messages[..1] == [Greeting()];
  }

  /** Submitting while a recommendation is in flight adds no message. */
  lemma SubmitWhileLoadingIgnored(s: AppState, input: string, userId: string)
    requires s.isLoading
    ensures Step(s, Submit(input, userId)) == s
  {
  }
}

=== FILE: chat_window.dfy ===
/** The chat input's submit handler: a message goes out only when the
    trimmed input is non-empty and no request is in flight; then the
    trimmed text is sent and the field is cleared. */
module ChatWindow {
  import opened Types
  import opened Text

  /** What a submit does: the text handed to `onSendMessage`, if any, and
      the input field's new contents. */
  datatype SendDecision = SendDecision(sent: Option<string>, input: string)

  function HandleSend(input: string, isLoading: bool): (d: SendDecision)
    ensures d.sent.Some? <==> !isLoading && !AllWhitespace(input)
    ensures d.sent.Some? ==> d.sent.value != "" && IsTrimmed(d.sent.value) && d.input == ""
    ensures d.sent.Some? ==> Strips(input, d.sent.value)
    ensures d.sent.None? ==> d.input == input
  {
    var text := Trim(input);
    TrimEmptyIff(input);
    if text != "" && !isLoading then
      assert Strips(input, text) by { var i, j := TrimSlice(input); }
      SendDecision(Some(text), "")
    else SendDecision(None, input)
  }

  /** While a request is in flight nothing is sent, whatever was typed,
      and the typed text stays in the field. */
  lemma LoadingNeverSends(input: string)
    ensures HandleSend(input, true) == SendDecision(None, input)
  {
  }

  /** The sent text is exactly what trimming the field gives, and sending
      it again would send the same text. */
  lemma SentTextIsTrimmedInput(input: string)
    requires HandleSend(input, false).sent.Some?
    ensures HandleSend(input, false).sent.value == Trim(input)
    ensures HandleSend(HandleSend(input, false).sent.value, false).sent == HandleSend(input, false).sent
  {
    var text := HandleSend(input, false).sent.value;
    TrimOfTrimmed(text);
  }
}

=== FILE: preferences_panel.dfy ===
/** The preferences form: the brand-list parser, the three field
    handlers, and the panel's local state (its copy of the preferences and
    the raw text of the brands field). */
module PreferencesPanel {
  import opened Types
  import opened Text

  /** `parts.map(b => b.trim())` */
  function TrimEach(parts: seq<string>): (r: seq<string>)
    ensures |r| == |parts|
    ensures forall k :: 0 <= k < |r| ==> IsTrimmed(r[k])
  {
    if |parts| == 0 then [] else [Trim(parts[0])] + TrimEach(parts[1..])
  }

  /** Each token is trimmed in place. */
  lemma {:induction false} TrimEachAt(parts: seq<string>)
    ensures forall k :: 0 <= k < |parts| ==> TrimEach(parts)[k] == Trim(parts[k])
    decreases |parts|
  {
    if |parts| > 0 {
      TrimEachAt(parts[1..]);
      var r := TrimEach(parts);
      assert r == [Trim(parts[0])] + TrimEach(parts[1..]);
      forall k | 0 <= k < |parts| ensures r[k] == Trim(parts[k]) {
        if k > 0 { assert r[k] == TrimEach(parts[1..])[k - 1]; }
      }
    }
  }

  /** `parts.filter(Boolean)`: keeps exactly the non-empty strings (that
      their order is kept is `DropEmptyConcat`). */
  function DropEmpty(parts: seq<string>): (r: seq<string>)
    ensures |r| <= |parts|
    ensures forall x :: x in r <==> x in parts && x != ""
  {
    if |parts| == 0 then []
    else if parts[0] == "" then DropEmpty(parts[1..])
    else [parts[0]] + DropEmpty(parts[1..])
  }

  /** A brand as the parser can produce it and give back unchanged. */
  predicate IsBrand(b: string) {
    b != "" && IsTrimmed(b) && Free(b, ',')
  }

  predicate ProperBrands(brands: seq<string>) {
    forall k :: 0 <= k < |brands| ==> IsBrand(brands[k])
  }

  /** The brands field: split on commas, trim each token, drop empty
      tokens. Every parsed brand is non-empty, trimmed and comma-free. */
  function ParseBrands(value: string): (brands: seq<string>)
    ensures ProperBrands(brands)
  {
    var parts := Split(value, ',');
    var trimmed := TrimEach(parts);
    TrimEachFree(parts, ',');
    var r := DropEmpty(trimmed);
    assert forall k :: 0 <= k < |r| ==> r[k] in trimmed && r[k] != "" by {
      forall k | 0 <= k < |r| ensures r[k] in trimmed && r[k] != "" {
        assert r[k] in r;
      }
    }
    r
  }

  /** The text the brands field starts with: `preferredBrands.join(', ')`. */
  function BrandsText(brands: seq<string>): string {
    Join(brands, ", ")
  }

  lemma TrimKeepsFree(s: string, sep: char)
    requires Free(s, sep)
    ensures Free(Trim(s), sep)
  {
    var i, j := TrimSlice(s);
    assert forall k :: 0 <= k < j - i ==> s[i..j][k] == s[i + k];
  }

  lemma {:induction false} TrimEachFree(parts: seq<string>, sep: char)
    requires forall k :: 0 <= k < |parts| ==> Free(parts[k], sep)
    ensures forall k :: 0 <= k < |parts| ==> Free(TrimEach(parts)[k], sep)
    decreases |parts|
  {
    if |parts| > 0 {
      TrimKeepsFree(parts[0], sep);
      TrimEachFree(parts[1..], sep);
      var r := TrimEach(parts);
      assert r == [Trim(parts[0])] + TrimEach(parts[1..]);
      forall k | 0 <= k < |parts| ensures Free(r[k], sep) {
        if k > 0 { assert r[k] == TrimEach(parts[1..])[k - 1]; }
      }
    }
  }

  lemma {:induction false} TrimEachConcat(a: seq<string>, b: seq<string>)
    ensures TrimEach(a + b) == TrimEach(a) + TrimEach(b)
    decreases |a|
  {
    if |a| > 0 {
      assert (a + b)[0] == a[0];
      assert (a + b)[1..] == a[1..] + b;
      TrimEachConcat(a[1..], b);
      assert TrimEach(a + b) == [Trim(a[0])] + TrimEach(a[1..] + b);
    } else {
      assert a + b == b;
    }
  }

  lemma {:induction false} DropEmptyConcat(a: seq<string>, b: seq<string>)
    ensures DropEmpty(a + b) == DropEmpty(a) + DropEmpty(b)
    decreases |a|
  {
    if |a| > 0 {
      assert (a + b)[0] == a[0];
      assert (a + b)[1..] == a[1..] + b;
      DropEmptyConcat(a[1..], b);
      if a[0] != "" {
        assert DropEmpty(a + b) == [a[0]] + DropEmpty(a[1..] + b);
        assert DropEmpty(a) == [a[0]] + DropEmpty(a[1..]);
      }
    } else {
      assert a + b == b;
    }
  }

  /** Order is preserved and nothing is deduplicated: the brands before a
      comma come first, exactly as parsed on their own, followed by the
      brands after it. */
  lemma ParseBrandsConcat(a: string, b: string)
    ensures ParseBrands(a + "," + b) == ParseBrands(a) + ParseBrands(b)
  {
    SplitConcat(a, b, ',');
    TrimEachConcat(Split(a, ','), Split(b, ','));
    DropEmptyConcat(TrimEach(Split(a, ',')), TrimEach(Split(b, ',')));
  }

  /** A comma-free segment contributes its trimmed text, or nothing when
      it is blank. */
  lemma ParseBrandsSegment(s: string)
    requires Free(s, ',')
    ensures ParseBrands(s) == (if AllWhitespace(s) then [] else [Trim(s)])
  {
    SplitFree(s, ',');
    TrimEmptyIff(s);
    assert TrimEach([s]) == [Trim(s)];
  }

  /** Leading whitespace in front of the field changes nothing. */
  lemma ParseBrandsLeadingWhitespace(w: string, s: string)
    requires AllWhitespace(w)
    ensures ParseBrands(w + s) == ParseBrands(s)
  {
    var parts := Split(s, ',');
    assert w + s == w + Join(parts, [',']);
    WhitespaceFree(w, ',');
    SplitConcatFree(w, s);
    var parts' := Split(w + s, ',');
    TrimLeadingWhitespace(w, parts[0]);
    assert TrimEach(parts') == TrimEach(parts) by {
      assert parts' == [w + parts[0]] + parts[1..];
      assert parts == [parts[0]] + parts[1..];
      TrimEachConcat([w + parts[0]], parts[1..]);
      TrimEachConcat([parts[0]], parts[1..]);
    }
  }

  /** A comma-free prefix is glued onto the first part. */
  lemma {:induction false} SplitConcatFree(w: string, s: string)
    requires Free(w, ',')
    ensures Split(w + s, ',') == [w + Split(s, ',')[0]] + Split(s, ',')[1..]
    decreases |w|
  {
    if |w| > 0 {
      assert (w + s)[1..] == w[1..] + s;
      SplitConcatFree(w[1..], s);
      assert [w[0]] + (w[1..] + Split(s, ',')[0]) == w + Split(s, ',')[0];
    } else {
      assert w + s == s;
      assert w + Split(s, ',')[0] == Split(s, ',')[0];
      assert Split(s, ',') == [Split(s, ',')[0]] + Split(s, ',')[1..];
    }
  }

  /** Nothing but commas and whitespace. */
  predicate Blank(s: string) {
    forall k :: 0 <= k < |s| ==> s[k] == ',' || IsWhitespace(s[k])
  }

  lemma BlankConcat(a: string, b: string)
    ensures Blank(a + "," + b) <==> Blank(a) && Blank(b)
  {
    var s := a + "," + b;
    assert forall k :: 0 <= k < |a| ==> s[k] == a[k];
    assert forall k :: 0 <= k < |b| ==> s[|a| + 1 + k] == b[k];
    assert forall k :: |a| + 1 <= k < |s| ==> s[k] == b[k - |a| - 1];
  }

  /** The field parses to no brands exactly when it holds nothing but
      commas and whitespace (the empty field included). */
  lemma {:induction false} ParseBrandsEmptyIff(s: string)
    ensures ParseBrands(s) == [] <==> Blank(s)
    decreases |s|
  {
    if Free(s, ',') {
      ParseBrandsSegment(s);
    } else {
      var c := FirstComma(s);
      var a, b := s[..c], s[c + 1..];
      assert s == a + "," + b;
      ParseBrandsConcat(a, b);
      ParseBrandsSegment(a);
      ParseBrandsEmptyIff(b);
      BlankConcat(a, b);
    }
  }

  /** Index of the first comma of a string that has one. */
  function FirstComma(s: string): (c: nat)
    requires !Free(s, ',')
    ensures c < |s| && s[c] == ',' && Free(s[..c], ',')
  {
    if s[0] == ',' then 0
    else
      var k :| 0 <= k < |s| && s[k] == ',';
      assert s[1..][k - 1] == ',';
      var c := FirstComma(s[1..]);
      assert forall j :: 0 <= j < c ==> s[1..][..c][j] == s[j + 1];
      1 + c
  }

  /** A proper brand on its own parses to itself. */
  lemma ParseBrandsOne(b: string)
    requires IsBrand(b)
    ensures ParseBrands(b) == [b]
  {
    ParseBrandsSegment(b);
    TrimOfTrimmed(b);
  }

  lemma ParseBrandsCons(b: string, rest: string)
    requires IsBrand(b)
    ensures ParseBrands(b + "," + (" " + rest)) == [b] + ParseBrands(rest)
  {
    ParseBrandsConcat(b, " " + rest);
    assert AllWhitespace(" ") && Free(" ", ',');
    ParseBrandsLeadingWhitespace(" ", rest);
    ParseBrandsOne(b);
  }

  /** Round trip: a list of proper brands shown as `join(', ')` parses back
      to the same list. */
  lemma {:induction false} ParseBrandsText(brands: seq<string>)
    requires ProperBrands(brands)
    ensures ParseBrands(BrandsText(brands)) == brands
    decreases |brands|
  {
    if |brands| == 0 {
      SplitFree("", ',');
    } else if |brands| == 1 {
      ParseBrandsOne(brands[0]);
    } else {
      ParseBrandsText(brands[1..]);
      BrandsTextCons(brands);
      ParseBrandsCons(brands[0], BrandsText(brands[1..]));
      assert [brands[0]] + brands[1..] == brands;
    }
  }

  lemma BrandsTextCons(brands: seq<string>)
    requires |brands| >= 2
    ensures BrandsText(brands) == brands[0] + "," + (" " + BrandsText(brands[1..]))
  {
    var rest := BrandsText(brands[1..]);
    assert BrandsText(brands) == brands[0] + ", " + rest;
    assert ", " == "," + " ";
  }

  /** A proper brand with whitespace padding parses to the bare brand. */
  lemma ParseBrandsPadded(w1: string, b: string, w2: string)
    requires IsBrand(b)
    requires AllWhitespace(w1) && AllWhitespace(w2)
    ensures ParseBrands(w1 + b + w2) == [b]
  {
    var s := w1 + b + w2;
    WhitespaceFree(w1, ',');
    WhitespaceFree(w2, ',');
    assert Free(s, ',') by {
      forall k | 0 <= k < |s| ensures s[k] != ',' {
        if k < |w1| { assert s[k] == w1[k]; }
        else if k < |w1| + |b| { assert s[k] == b[k - |w1|]; }
        else { assert s[k] == w2[k - |w1| - |b|]; }
      }
    }
    assert s[|w1|] == b[0];
    ParseBrandsSegment(s);
    TrimDecomposition(w1, b, w2);
  }

  /** The panel's own state: its copy of the preferences and the raw text
      typed into the brands field. */
  datatype PanelState = PanelState(localPrefs: UserPreferences, brandsInput: string)

  /** A handler's effect: the new panel state and the preferences passed
      to `onPreferencesChange`. */
  datatype PanelUpdate = PanelUpdate(panel: PanelState, emitted: UserPreferences)

  /** The brands field shows the brands the panel holds. */
  predicate InSync(p: PanelState) {
    ParseBrands(p.brandsInput) == p.localPrefs.preferredBrands
  }

  /** Mounting the panel: it copies the preferences and shows the brands
      joined with `", "`; when every brand is proper, the field and the
      list agree. */
  function Mount(prefs: UserPreferences): (p: PanelState)
    ensures p.localPrefs == prefs
    ensures p.brandsInput == BrandsText(prefs.preferredBrands)
    ensures ProperBrands(prefs.preferredBrands) ==> InSync(p)
  {
    var p := PanelState(prefs, BrandsText(prefs.preferredBrands));
    assert ProperBrands(prefs.preferredBrands) ==> InSync(p) by {
      if ProperBrands(prefs.preferredBrands) {
        ParseBrandsText(prefs.preferredBrands);
      }
    }
    p
  }

  /** Editing the budget replaces only the budget and emits the new preferences. */
  function OnBudgetChange(p: PanelState, value: string): (u: PanelUpdate)
    ensures u.emitted == u.panel.localPrefs
    ensures u.emitted.budget == value
    ensures u.emitted.preferredBrands == p.localPrefs.preferredBrands
    ensures u.emitted.sustainabilityFocus == p.localPrefs.sustainabilityFocus
    ensures u.panel.brandsInput == p.brandsInput
    ensures InSync(p) ==> InSync(u.panel)
  {
    var prefs := p.localPrefs.(budget := value);
    PanelUpdate(PanelState(prefs, p.brandsInput), prefs)
  }

  /** Editing the brands field stores the raw text and replaces only the
      brand list, with the parsed text. */
  function OnBrandsChange(p: PanelState, value: string): (u: PanelUpdate)
    ensures u.emitted == u.panel.localPrefs
    ensures u.panel.brandsInput == value
    ensures u.emitted.preferredBrands == ParseBrands(value)
    ensures u.emitted.budget == p.localPrefs.budget
    ensures u.emitted.sustainabilityFocus == p.localPrefs.sustainabilityFocus
    ensures InSync(u.panel)
  {
    var prefs := p.localPrefs.(preferredBrands := ParseBrands(value));
    PanelUpdate(PanelState(prefs, value), prefs)
  }

  /** Toggling sustainability replaces only that flag. */
  function OnSustainabilityChange(p: PanelState, checked: bool): (u: PanelUpdate)
    ensures u.emitted == u.panel.localPrefs
    ensures u.emitted.sustainabilityFocus == checked
    ensures u.emitted.budget == p.localPrefs.budget
    ensures u.emitted.preferredBrands == p.localPrefs.preferredBrands
    ensures u.panel.brandsInput == p.brandsInput
    ensures InSync(p) ==> InSync(u.panel)
  {
    var prefs := p.localPrefs.(sustainabilityFocus := checked);
    PanelUpdate(PanelState(prefs, p.brandsInput), prefs)
  }

  /** The three setters touch disjoint fields, so editing two fields in
      either order ends in the same panel state. */
  lemma HandlersCommute(p: PanelState, budget: string, brands: string, checked: bool)
    ensures OnBrandsChange(OnBudgetChange(p, budget).panel, brands).panel
         == OnBudgetChange(OnBrandsChange(p, brands).panel, budget).panel
    ensures OnSustainabilityChange(OnBudgetChange(p, budget).panel, checked).panel
         == OnBudgetChange(OnSustainabilityChange(p, checked).panel, budget).panel
    ensures OnSustainabilityChange(OnBrandsChange(p, brands).panel, checked).panel
         == OnBrandsChange(OnSustainabilityChange(p, checked).panel, brands).panel
  {
  }
}

=== FILE: review_summary_panel.dfy ===
/** The review-summary side panel: which of its three bodies is shown,
    the "For: <name>" header, and the highlighting of the "Pros:" and
    "Cons:" markers in the summary text. */
module ReviewSummaryPanel {
  import opened Types
  import opened Text

  const ProsMarker: string := "Pros:"
  const ConsMarker: string := "Cons:"
  /** The markup each marker is replaced with. */
  const ProsHtml: string := "<strong class=\"text-green-400\">Pros:</strong>"
  const ConsHtml: string := "<strong class=\"text-red-400\">Cons:</strong>"

  /** The panel body: the loading skeleton, the "select a product"
      placeholder, or the highlighted summary. */
  datatype Body = LoadingBody | PlaceholderBody | SummaryBody(html: string)

  /** A summary string counts as present when it is non-null and non-empty
      (JavaScript truthiness of a string). */
  predicate Present(summary: Option<string>) {
    summary.Some? && summary.value != ""
  }

  /** `summary.replace(/Pros:/g, …).replace(/Cons:/g, …)` */
  function Highlight(summary: string): string {
    ReplaceAll(ReplaceAll(summary, ProsMarker, ProsHtml), ConsMarker, ConsHtml)
  }

  /** Exactly one body is chosen: loading wins whenever the flag is set,
      the placeholder appears exactly when idle with no summary text, and
      otherwise the summary is shown highlighted. */
  function SelectBody(isLoading: bool, summary: Option<string>): (b: Body)
    ensures b.LoadingBody? <==> isLoading
    ensures b.PlaceholderBody? <==> !isLoading && !Present(summary)
    ensures b.SummaryBody? <==> !isLoading && Present(summary)
    ensures b.SummaryBody? ==> b.html == Highlight(summary.value)
  {
    if isLoading then LoadingBody
    else if !Present(summary) then PlaceholderBody
    else SummaryBody(Highlight(summary.value))
  }

  /** The "For: <name>" line, shown exactly when a non-empty product name is selected. */
  function Header(productName: Option<string>): (h: Option<string>)
    ensures h.Some? <==> Present(productName)
    ensures h.Some? ==> h.value == "For: " + productName.value
  {
    if Present(productName) then Some("For: " + productName.value) else None
  }

  /** Text without either marker is shown exactly as it came. */
  lemma HighlightWithoutMarkers(summary: string)
    requires !Occurs(summary, ProsMarker) && !Occurs(summary, ConsMarker)
    ensures Highlight(summary) == summary
  {
    ReplaceAllAbsent(summary, ProsMarker, ProsHtml);
    ReplaceAllAbsent(summary, ConsMarker, ConsHtml);
  }

  /** The first "Pros:" after marker-free text is wrapped and the text
      before it is kept; the first pass then carries on after it. */
  lemma HighlightFirstPros(before: string, after: string)
    requires !Occurs(before, ProsMarker)
    ensures ReplaceAll(before + ProsMarker + after, ProsMarker, ProsHtml)
         == before + ProsHtml + ReplaceAll(after, ProsMarker, ProsHtml)
  {
    LeftmostAfterAbsent(before, ProsMarker, after);
    ReplaceAllLeftmost(before, ProsMarker, after, ProsHtml);
  }

  /** Same for the second pass and the first "Cons:". */
  lemma HighlightFirstCons(before: string, after: string)
    requires !Occurs(before, ConsMarker)
    ensures ReplaceAll(before + ConsMarker + after, ConsMarker, ConsHtml)
         == before + ConsHtml + ReplaceAll(after, ConsMarker, ConsHtml)
  {
    LeftmostAfterAbsent(before, ConsMarker, after);
    ReplaceAllLeftmost(before, ConsMarker, after, ConsHtml);
  }

  /** The character facts the highlighting relies on: each marker's head
      is unique, neither marker can straddle into the other, and the
      wrapped "Pros:" holds no "Cons:". */
  lemma MarkerFacts()
    ensures HeadUnique(ProsMarker) && HeadUnique(ConsMarker)
    ensures forall k :: 1 <= k < |ProsMarker| ==> ProsMarker[k] != ConsMarker[0]
    ensures forall k :: 0 <= k < |ProsMarker| - 1 ==> ProsMarker[k] != ConsMarker[|ConsMarker| - 1]
    ensures !Occurs(ConsMarker, ProsMarker)
    ensures forall k :: 1 <= k < |ConsMarker| ==> ConsMarker[k] != ProsHtml[0]
    ensures forall k :: 0 <= k < |ConsMarker| - 1 ==> ConsMarker[k] != ProsHtml[|ProsHtml| - 1]
    ensures !Occurs(ProsHtml, ConsMarker)
  {
    AbsentByFirstChar(ConsMarker, ProsMarker);
    ProsHtmlChars();
    AbsentByFirstChar(ProsHtml, ConsMarker);
  }

  /** The green markup starts with `<`, ends with `>` and has no `C`. */
  lemma ProsHtmlChars()
    ensures |ProsHtml| > 0 && ProsHtml[0] == '<' && ProsHtml[|ProsHtml| - 1] == '>'
    ensures forall k :: 0 <= k < |ProsHtml| ==> ProsHtml[k] != 'C'
  {
    assert ProsHtml == "<strong class=" + ['"'] + "text-green-400" + ['"'] + ">Pros:</strong>";
  }

  /** Marker-free sections around a "Cons:" contain no "Pros:". */
  lemma NoProsAroundCons(pros: string, cons: string)
    requires !Occurs(pros, ProsMarker) && !Occurs(cons, ProsMarker)
    ensures !Occurs(pros + ConsMarker + cons, ProsMarker)
  {
    MarkerFacts();
    ConcatAbsentByTail(ConsMarker, cons, ProsMarker);
    ConcatAbsentByHead(pros, ConsMarker + cons, ProsMarker);
    assert pros + ConsMarker + cons == pros + (ConsMarker + cons);
  }

  /** First pass over an introduction, a "Pros:" section and a "Cons:"
      section: only the one "Pros:" is wrapped. */
  lemma HighlightProsPass(intro: string, pros: string, cons: string)
    requires !Occurs(intro, ProsMarker) && !Occurs(pros, ProsMarker) && !Occurs(cons, ProsMarker)
    ensures ReplaceAll(intro + ProsMarker + pros + ConsMarker + cons, ProsMarker, ProsHtml)
         == (intro + ProsHtml + pros) + ConsMarker + cons
  {
    MarkerFacts();
    NoProsAroundCons(pros, cons);
    ReplaceOnce(intro, ProsMarker, pros + ConsMarker + cons, ProsHtml);
    Regroup(intro, ProsMarker, pros, ConsMarker, cons);
    Regroup(intro, ProsHtml, pros, ConsMarker, cons);
  }

  /** Second pass: the wrapped "Pros:" holds no "Cons:", so only the one
      "Cons:" is wrapped. */
  lemma HighlightConsPass(intro: string, pros: string, cons: string)
    requires !Occurs(intro, ConsMarker) && !Occurs(pros, ConsMarker) && !Occurs(cons, ConsMarker)
    ensures ReplaceAll((intro + ProsHtml + pros) + ConsMarker + cons, ConsMarker, ConsHtml)
         == intro + ProsHtml + pros + ConsHtml + cons
  {
    MarkerFacts();
    ConcatAbsentByHead(intro, ProsHtml, ConsMarker);
    ConcatAbsentByTail(intro + ProsHtml, pros, ConsMarker);
    HighlightFirstCons(intro + ProsHtml + pros, cons);
    ReplaceAllAbsent(cons, ConsMarker, ConsHtml);
  }

  /** A summary laid out as the service is asked to write it (an
      introduction, a "Pros:" section, then a "Cons:" section) has both
      markers wrapped and every other character kept in place. */
  lemma HighlightProsThenCons(intro: string, pros: string, cons: string)
    requires !Occurs(intro, ProsMarker) && !Occurs(intro, ConsMarker)
    requires !Occurs(pros, ProsMarker) && !Occurs(pros, ConsMarker)
    requires !Occurs(cons, ProsMarker) && !Occurs(cons, ConsMarker)
    ensures Highlight(intro + ProsMarker + pros + ConsMarker + cons)
         == intro + ProsHtml + pros + ConsHtml + cons
  {
    HighlightProsPass(intro, pros, cons);
    HighlightConsPass(intro, pros, cons);
  }
}

=== FILE: service.dfy ===
/** The recommendation and review-summary calls, reduced to their
    outcomes. Prompt construction, the network call and JSON parsing are
    not modelled: the external model's answer is an input, either a reply
    or a failure of the network call or of `JSON.parse`. A reply is
    taken to have the requested shape; the code never checks it. */
module Service {
  import opened Types

  /** What a rejected promise carries: an `Error` object with a message,
      or some other thrown value. */
  datatype Thrown = ErrorObject(message: string) | NonErrorValue

  /** The settled state of an awaited call. */
  datatype Settled<+T> = Resolved(value: T) | Rejected(reason: Thrown)

  /** The structured reply of the recommendation call. */
  datatype Recommendation = Recommendation(responseText: string, products: seq<Product>)

  const RecommendationFailedText: string := "I had trouble finding products. Please try again."
  const SummaryFailedText: string := "Could not generate a review summary at this time."

  /** `generateProductRecommendations`: a reply is passed through; any
      failure is caught and rethrown as an `Error` with a fixed message. */
  function GenerateProductRecommendations(reply: Option<Recommendation>): (r: Settled<Recommendation>)
    ensures reply.Some? ==> r == Resolved(reply.value)
    ensures reply.None? ==> r == Rejected(ErrorObject(RecommendationFailedText))
  {
    match reply
    case Some(rec) => Resolved(rec)
    case None => Rejected(ErrorObject(RecommendationFailedText))
  }

  /** `summarizeReviews`: the reply text is passed through; any failure is
      rethrown as an `Error` with a fixed message. */
  function SummarizeReviews(reply: Option<string>): (r: Settled<string>)
    ensures reply.Some? ==> r == Resolved(reply.value)
    ensures reply.None? ==> r == Rejected(ErrorObject(SummaryFailedText))
  {
    match reply
    case Some(text) => Resolved(text)
    case None => Rejected(ErrorObject(SummaryFailedText))
  }
}

=== FILE: text.dfy ===
/** The JavaScript string operations the components rely on: `trim`,
    `split` on a one-character separator, `join`, and a global replace of
    a literal pattern (`s.replace(/P/g, R)`). Strings are sequences of
    characters; UTF-16 surrogate pairs are not distinguished. */
module Text {

  /** The characters `String.prototype.trim` removes: the ECMAScript
      WhiteSpace and LineTerminator code points. */
  const WhitespaceChars: set<char> :=
    { '\t', '\n', '\U{000B}', '\U{000C}', '\r', ' ', '\U{00A0}', '\U{1680}',
      '\U{2000}', '\U{2001}', '\U{2002}', '\U{2003}', '\U{2004}', '\U{2005}',
      '\U{2006}', '\U{2007}', '\U{2008}', '\U{2009}', '\U{200A}',
      '\U{2028}', '\U{2029}', '\U{202F}', '\U{205F}', '\U{3000}', '\U{FEFF}' }

  predicate IsWhitespace(c: char) {
    c in WhitespaceChars
  }

  /** Every character of `s` in positions `lo` up to (excluding) `hi` is whitespace. */
  predicate WhitespaceBetween(s: string, lo: nat, hi: nat)
    requires lo <= hi <= |s|
  {
    forall k :: lo <= k < hi ==> IsWhitespace(s[k])
  }

  predicate AllWhitespace(s: string) {
    WhitespaceBetween(s, 0, |s|)
  }

  /** Neither starts nor ends with whitespace. */
  predicate IsTrimmed(s: string) {
    |s| == 0 || (!IsWhitespace(s[0]) && !IsWhitespace(s[|s| - 1]))
  }

  /** First position at or after `from` that does not hold whitespace. */
  function ContentStart(s: string, from: nat): (n: nat)
    requires from <= |s|
    ensures from <= n <= |s|
    ensures WhitespaceBetween(s, from, n)
    ensures n < |s| ==> !IsWhitespace(s[n])
    decreases |s| - from
  {
    if from < |s| && IsWhitespace(s[from]) then ContentStart(s, from + 1) else from
  }

  /** End of the content in `s[from..upto]` once trailing whitespace is cut. */
  function ContentEnd(s: string, from: nat, upto: nat): (n: nat)
    requires from <= upto <= |s|
    ensures from <= n <= upto
    ensures WhitespaceBetween(s, n, upto)
    ensures n > from ==> !IsWhitespace(s[n - 1])
    decreases upto
  {
    if upto > from && IsWhitespace(s[upto - 1]) then ContentEnd(s, from, upto - 1) else upto
  }

  /** `s.trim()`: the result neither starts nor ends with whitespace
      (see `TrimSlice` and `TrimDecomposition` for what is cut off). */
  function Trim(s: string): (r: string)
    ensures IsTrimmed(r)
    ensures |r| <= |s|
  {
    var i := ContentStart(s, 0);
    var j := ContentEnd(s, i, |s|);
    s[i..j]
  }

  /** `r` is `s` with some whitespace cut off each end. */
  ghost predicate Strips(s: string, r: string) {
    exists i, j :: 0 <= i <= j <= |s| && r == s[i..j]
                   && WhitespaceBetween(s, 0, i) && WhitespaceBetween(s, j, |s|)
  }

  /** Trim keeps a contiguous slice of `s` and cuts off only whitespace on
      either side. */
  lemma TrimSlice(s: string) returns (i: nat, j: nat)
    ensures i <= j <= |s| && Trim(s) == s[i..j]
    ensures WhitespaceBetween(s, 0, i) && WhitespaceBetween(s, j, |s|)
  {
    i := ContentStart(s, 0);
    j := ContentEnd(s, i, |s|);
  }

  /** The content starts at the first non-whitespace position, wherever that is. */
  lemma ContentStartAt(s: string, k: nat)
    requires k <= |s| && WhitespaceBetween(s, 0, k)
    requires k < |s| ==> !IsWhitespace(s[k])
    ensures ContentStart(s, 0) == k
  {
  }

  /** The content ends after the last non-whitespace position. */
  lemma ContentEndAt(s: string, from: nat, k: nat)
    requires from <= k <= |s| && WhitespaceBetween(s, k, |s|)
    requires k > from ==> !IsWhitespace(s[k - 1])
    ensures ContentEnd(s, from, |s|) == k
  {
  }

  /** Trim is characterised uniquely: whatever whitespace surrounds a
      trimmed core, trimming yields exactly that core. */
  lemma TrimDecomposition(w1: string, m: string, w2: string)
    requires AllWhitespace(w1) && AllWhitespace(w2) && IsTrimmed(m)
    ensures Trim(w1 + m + w2) == m
  {
    var s := w1 + m + w2;
    var e := |w1| + |m|;
    assert forall k :: 0 <= k < |w1| ==> s[k] == w1[k];
    assert forall k :: e <= k < |s| ==> s[k] == w2[k - e];
    if |m| == 0 {
      ContentStartAt(s, |s|);
      ContentEndAt(s, |s|, |s|);
    } else {
      assert s[|w1|] == m[0] && s[e - 1] == m[|m| - 1];
      ContentStartAt(s, |w1|);
      ContentEndAt(s, |w1|, e);
      assert s[|w1|..e] == m;
    }
  }

  /** Trimming gives the empty string exactly for all-whitespace input. */
  lemma TrimEmptyIff(s: string)
    ensures Trim(s) == "" <==> AllWhitespace(s)
  {
    if AllWhitespace(s) {
      assert s == s + "" + "";
      TrimDecomposition(s, "", "");
    } else {
      var i, j := TrimSlice(s);
    }
  }

  /** Trimming a trimmed string changes nothing; in particular trim is idempotent. */
  lemma TrimOfTrimmed(s: string)
    requires IsTrimmed(s)
    ensures Trim(s) == s
  {
    assert s == "" + s + "";
    TrimDecomposition("", s, "");
  }

  lemma AllWhitespaceSlice(s: string, lo: nat, hi: nat)
    requires lo <= hi <= |s| && WhitespaceBetween(s, lo, hi)
    ensures AllWhitespace(s[lo..hi])
  {
    assert forall k :: 0 <= k < hi - lo ==> s[lo..hi][k] == s[lo + k];
  }

  lemma AllWhitespaceConcat(a: string, b: string)
    requires AllWhitespace(a) && AllWhitespace(b)
    ensures AllWhitespace(a + b)
  {
    assert forall k :: 0 <= k < |a| ==> (a + b)[k] == a[k];
    assert forall k :: |a| <= k < |a| + |b| ==> (a + b)[k] == b[k - |a|];
  }

  /** Extra leading whitespace does not change the trimmed result. */
  lemma TrimLeadingWhitespace(w: string, s: string)
    requires AllWhitespace(w)
    ensures Trim(w + s) == Trim(s)
  {
    var i, j := TrimSlice(s);
    AllWhitespaceSlice(s, 0, i);
    AllWhitespaceSlice(s, j, |s|);
    AllWhitespaceConcat(w, s[..i]);
    SliceThree(s, i, j);
    assert w + s == (w + s[..i]) + s[i..j] + s[j..];
    TrimDecomposition(w + s[..i], s[i..j], s[j..]);
  }

  lemma SliceThree(s: string, i: nat, j: nat)
    requires i <= j <= |s|
    ensures s == s[..i] + s[i..j] + s[j..]
  {
  }

  /** A separator-free string that `sep` never occurs in. */
  predicate Free(s: string, sep: char) {
    forall i :: 0 <= i < |s| ==> s[i] != sep
  }

  /** Whitespace never holds a non-whitespace separator such as `,`. */
  lemma WhitespaceFree(w: string, sep: char)
    requires AllWhitespace(w) && !IsWhitespace(sep)
    ensures Free(w, sep)
  {
    forall i | 0 <= i < |w| ensures w[i] != sep {
      assert IsWhitespace(w[i]);
    }
  }

  /** `parts.join(sep)`: an empty array joins to the empty string. */
  function Join(parts: seq<string>, sep: string): string
  {
    if |parts| == 0 then ""
    else if |parts| == 1 then parts[0]
    else parts[0] + sep + Join(parts[1..], sep)
  }

  /** `s.split(sep)` for a one-character separator: always at least one
      part, no part contains the separator, and joining the parts back
      with the separator restores `s`. */
  function Split(s: string, sep: char): (parts: seq<string>)
    ensures |parts| >= 1
    ensures forall k :: 0 <= k < |parts| ==> Free(parts[k], sep)
    ensures Join(parts, [sep]) == s
    decreases |s|
  {
    if |s| == 0 then [""]
    else
      var rest := Split(s[1..], sep);
      if s[0] == sep then
        assert ([""] + rest)[1..] == rest;
        [""] + rest
      else
        var first := [s[0]] + rest[0];
        assert forall k :: 1 <= k < |rest| ==> ([first] + rest[1..])[k] == rest[k];
        if |rest| == 1 then [first]
        else
          assert ([first] + rest[1..])[1..] == rest[1..];
          assert Join(rest, [sep]) == rest[0] + [sep] + Join(rest[1..], [sep]);
          [first] + rest[1..]
  }

  /** A string without the separator splits into just itself. */
  lemma {:induction false} SplitFree(s: string, sep: char)
    requires Free(s, sep)
    ensures Split(s, sep) == [s]
    decreases |s|
  {
    if |s| > 0 {
      SplitFree(s[1..], sep);
      assert [s[0]] + s[1..] == s;
    }
  }

  /** Splitting distributes over a separator: the parts of `a` come first,
      in order, then the parts of `b`. */
  lemma {:induction false} SplitConcat(a: string, b: string, sep: char)
    ensures Split(a + [sep] + b, sep) == Split(a, sep) + Split(b, sep)
    decreases |a|
  {
    var s := a + [sep] + b;
    if |a| == 0 {
      assert s[1..] == b;
    } else {
      assert s[0] == a[0];
      assert s[1..] == a[1..] + [sep] + b;
      SplitConcat(a[1..], b, sep);
    }
  }

  /** Split undoes Join: joining separator-free parts and splitting again
      returns the same parts. */
  lemma {:induction false} SplitJoin(parts: seq<string>, sep: char)
    requires |parts| >= 1
    requires forall k :: 0 <= k < |parts| ==> Free(parts[k], sep)
    ensures Split(Join(parts, [sep]), sep) == parts
    decreases |parts|
  {
    if |parts| == 1 {
      SplitFree(parts[0], sep);
    } else {
      SplitJoin(parts[1..], sep);
      SplitFree(parts[0], sep);
      SplitConcat(parts[0], Join(parts[1..], [sep]), sep);
      assert [parts[0]] + parts[1..] == parts;
    }
  }

  /** `pat` occurs in `s` starting at index `i`. */
  predicate OccursAt(s: string, pat: string, i: nat) {
    i + |pat| <= |s| && s[i..i + |pat|] == pat
  }

  predicate Occurs(s: string, pat: string) {
    exists i: nat :: i <= |s| && OccursAt(s, pat, i)
  }

  /** `s.replace(/pat/g, rep)` for a literal, non-empty pattern: scanning
      left to right, each occurrence that does not overlap an earlier
      replaced one becomes `rep`; the replacement text is not rescanned. */
  function ReplaceAll(s: string, pat: string, rep: string): string
    requires |pat| > 0
    decreases |s|
  {
    if |s| < |pat| then s
    else if OccursAt(s, pat, 0) then rep + ReplaceAll(s[|pat|..], pat, rep)
    else [s[0]] + ReplaceAll(s[1..], pat, rep)
  }

  /** An occurrence in the tail is an occurrence one position further on. */
  lemma OccursAtTail(s: string, pat: string, i: nat)
    requires |s| > 0
    ensures OccursAt(s[1..], pat, i) <==> OccursAt(s, pat, i + 1)
  {
    if i + 1 + |pat| <= |s| {
      assert s[1..][i..i + |pat|] == s[i + 1..i + 1 + |pat|];
    }
  }

  /** Text that does not contain the pattern is left unchanged. */
  lemma {:induction false} ReplaceAllAbsent(s: string, pat: string, rep: string)
    requires |pat| > 0
    requires !Occurs(s, pat)
    ensures ReplaceAll(s, pat, rep) == s
    decreases |s|
  {
    if |s| >= |pat| {
      assert !OccursAt(s, pat, 0);
      forall i: nat | i <= |s[1..]| ensures !OccursAt(s[1..], pat, i) {
        OccursAtTail(s, pat, i);
      }
      ReplaceAllAbsent(s[1..], pat, rep);
      assert [s[0]] + s[1..] == s;
    }
  }

  /** The leftmost occurrence is replaced, the text before it is kept
      verbatim, and replacement continues after it. */
  lemma {:induction false} ReplaceAllLeftmost(a: string, pat: string, b: string, rep: string)
    requires |pat| > 0
    requires forall i: nat :: i < |a| ==> !OccursAt(a + pat + b, pat, i)
    ensures ReplaceAll(a + pat + b, pat, rep) == a + rep + ReplaceAll(b, pat, rep)
    decreases |a|
  {
    var s := a + pat + b;
    if |a| == 0 {
      assert OccursAt(s, pat, 0);
      assert s[|pat|..] == b;
    } else {
      assert !OccursAt(s, pat, 0);
      assert s[1..] == a[1..] + pat + b;
      forall i: nat | i < |a[1..]|
        ensures !OccursAt(a[1..] + pat + b, pat, i)
      {
        OccursAtTail(s, pat, i);
      }
      ReplaceAllLeftmost(a[1..], pat, b, rep);
      calc {
        ReplaceAll(s, pat, rep);
        [s[0]] + ReplaceAll(s[1..], pat, rep);
        [a[0]] + (a[1..] + rep + ReplaceAll(b, pat, rep));
        { assert [a[0]] + a[1..] == a; }
        a + rep + ReplaceAll(b, pat, rep);
      }
    }
  }

  /** The pattern's first character does not occur again in it. */
  predicate HeadUnique(pat: string) {
    |pat| > 0 && forall k :: 1 <= k < |pat| ==> pat[k] != pat[0]
  }

  /** A string without the pattern's first character cannot contain it. */
  lemma AbsentByFirstChar(x: string, pat: string)
    requires |pat| > 0
    requires forall k :: 0 <= k < |x| ==> x[k] != pat[0]
    ensures !Occurs(x, pat)
  {
    forall i: nat | i <= |x| ensures !OccursAt(x, pat, i) {
      if i + |pat| <= |x| { assert x[i..i + |pat|][0] == x[i]; }
    }
  }

  /** No occurrence straddles the junction when the second string starts
      with a character found nowhere in the pattern after its head. */
  lemma ConcatAbsentByHead(x: string, y: string, pat: string)
    requires |pat| > 0 && !Occurs(x, pat) && !Occurs(y, pat)
    requires |y| > 0 ==> forall k :: 1 <= k < |pat| ==> pat[k] != y[0]
    ensures !Occurs(x + y, pat)
  {
    var s := x + y;
    forall i: nat | i <= |s| ensures !OccursAt(s, pat, i) {
      if i + |pat| <= |x| {
        assert s[i..i + |pat|] == x[i..i + |pat|];
        assert !OccursAt(x, pat, i);
      } else if i >= |x| {
        if i + |pat| <= |s| {
          assert s[i..i + |pat|] == y[i - |x|..i - |x| + |pat|];
        }
        assert !OccursAt(y, pat, i - |x|);
      } else if i + |pat| <= |s| {
        assert s[i..i + |pat|][|x| - i] == y[0];
      }
    }
  }

  /** No occurrence straddles the junction when the first string ends
      with a character found nowhere in the pattern before its last. */
  lemma ConcatAbsentByTail(x: string, y: string, pat: string)
    requires |pat| > 0 && !Occurs(x, pat) && !Occurs(y, pat)
    requires |x| > 0 ==> forall k :: 0 <= k < |pat| - 1 ==> pat[k] != x[|x| - 1]
    ensures !Occurs(x + y, pat)
  {
    var s := x + y;
    forall i: nat | i <= |s| ensures !OccursAt(s, pat, i) {
      if i + |pat| <= |x| {
        assert s[i..i + |pat|] == x[i..i + |pat|];
        assert !OccursAt(x, pat, i);
      } else if i >= |x| {
        if i + |pat| <= |s| {
          assert s[i..i + |pat|] == y[i - |x|..i - |x| + |pat|];
        }
        assert !OccursAt(y, pat, i - |x|);
      } else if i + |pat| <= |s| {
        assert s[i..i + |pat|][|x| - 1 - i] == x[|x| - 1];
      }
    }
  }

  /** For a pattern whose head is unique, the first occurrence after
      pattern-free text is the leftmost one. */
  lemma LeftmostAfterAbsent(a: string, pat: string, b: string)
    requires HeadUnique(pat) && !Occurs(a, pat)
    ensures forall i: nat :: i < |a| ==> !OccursAt(a + pat + b, pat, i)
  {
    var s := a + pat + b;
    forall i: nat | i < |a| ensures !OccursAt(s, pat, i) {
      if i + |pat| <= |a| {
        assert s[i..i + |pat|] == a[i..i + |pat|];
        assert !OccursAt(a, pat, i);
      } else {
        assert s[i..i + |pat|][|a| - i] == pat[0];
      }
    }
  }

  /** A single occurrence, with no other occurrence on either side, is the
      only thing a global replace changes. */
  lemma ReplaceOnce(before: string, pat: string, after: string, rep: string)
    requires HeadUnique(pat) && !Occurs(before, pat) && !Occurs(after, pat)
    ensures ReplaceAll(before + pat + after, pat, rep) == before + rep + after
  {
    LeftmostAfterAbsent(before, pat, after);
    ReplaceAllLeftmost(before, pat, after, rep);
    ReplaceAllAbsent(after, pat, rep);
  }

  lemma Regroup(a: string, b: string, c: string, d: string, e: string)
    ensures a + b + (c + d + e) == a + b + c + d + e
  {
  }

  /** A global replace rewrites every occurrence: text made of
      pattern-free segments joined by the pattern becomes the same segments
      joined by the replacement. */
  lemma {:induction false} ReplaceAllJoin(segs: seq<string>, pat: string, rep: string)
    requires HeadUnique(pat)
    requires forall k :: 0 <= k < |segs| ==> !Occurs(segs[k], pat)
    ensures ReplaceAll(Join(segs, pat), pat, rep) == Join(segs, rep)
    decreases |segs|
  {
    if |segs| == 0 {
    } else if |segs| == 1 {
      ReplaceAllAbsent(segs[0], pat, rep);
    } else {
      ReplaceAllJoin(segs[1..], pat, rep);
      LeftmostAfterAbsent(segs[0], pat, Join(segs[1..], pat));
      ReplaceAllLeftmost(segs[0], pat, Join(segs[1..], pat), rep);
    }
  }
}

=== FILE: types.dfy ===
/** The records of the shopping assistant: offers, products, chat
    messages, user preferences and deal alerts. */
module Types {

  /** A value that may be absent (`null` / an omitted optional field). */
  datatype Option<+T> = None | Some(value: T)

  datatype ECommerceSource = Amazon | Flipkart | Other

  /** One shop's price and link for a product. The price is kept as the
      formatted text the recommendation service returned. */
  datatype Offer = Offer(source: ECommerceSource, price: string, url: string)

  datatype Product = Product(name: string, description: string, imageUrl: string, offers: seq<Offer>)

  datatype Sender = User | Ai

  datatype MessageKind = PlainMessage | Alert

  /** A chat entry. `products` and `kind` are optional fields; the
      conversation handlers never set `kind`. */
  datatype ChatMessage = ChatMessage(
    id: string,
    sender: Sender,
    text: string,
    products: Option<seq<Product>>,
    kind: Option<MessageKind>)

  datatype UserPreferences = UserPreferences(
    budget: string,
    preferredBrands: seq<string>,
    sustainabilityFocus: bool)

  /** A price watch; declared by the application but no handler creates one. */
  datatype DealAlert = DealAlert(id: string, productName: string, targetPrice: string)
}
